=== FILE: README.md ===
# shanbay2anki batch workers, modelled in Dafny

This project models the background workers of the shanbay2anki add-on
(`src/workers.py`) as small sequential state machines whose observable
behaviour is a trace of emitted signals.

- **BatchWorker** (`batch_worker.dfy`): the loop shared by
  `WordDownloadWorker`, `WordExampleDownloadWorker` and
  `SentenceTranslateDownloadWorker`. Before each item the loop polls the
  thread's interruption flag and returns if it is set. Otherwise it computes
  the provider call's argument from the item, makes the call and emits
  `tick`. After the loop it emits `done`. There is no `try`, so an exception
  in the loop body ends the run (fail-fast).
- **AudioWorker** (`audio_worker.dfy`): `AudioDownloadWorker.run` and its
  inner `__download` task. A task writes the file when it is absent or its
  size differs from `Content-Length`, and otherwise skips it. It swallows
  every exception (fail-soft). It emits `tick` in `finally`. The run emits
  `done` once, after the pool closes.
- **LoginWorker** (`login_worker.dfy`): `LoginStateCheckWorker.run`, which
  ends in `logSuccess(json.dumps(cookie))` or `logFailed`.
- **Signals** (`signals.dfy`): the event trace (`Insert(arg)`, `Tick`,
  `Done`), how a run ends (`Returned` or `Raised`), and counting functions.
  `Insert(arg)` records a provider call made with argument `arg`. The audio
  trace uses only `Tick` and `Done`.
- **Wrappers** (`wrappers.dfy`): `Option`.

Inputs the model takes as parameters:

- The Qt interruption flag is an oracle `interrupted: nat -> bool`, indexed
  by item position.
- Provider failures are an oracle `fails: nat -> bool`.
- The provider call's argument is a function `arg` of the item. It is the
  item itself for `insertWord` and `insertSentenceTranslates`, and
  `row['id']` for `insertWordExamples`. `None` means computing the argument
  raises.
- Each audio task's view of the world is one `TaskEnv`: the flag at task
  start, the HTTP exchange, and whether `open` succeeds.
- The filesystem is a `map<string, seq<byte>>`.

The thread pool is modelled as a fold over the pairs in submission order.
Ticks carry no payload, so only their count matters.
`AudioWorker.RunPerPair` shows that when no two pairs share a destination,
each pair's outcome and final file are those of its own task on the
initial filesystem. So the order in which the pool runs the tasks does not
change them.

Behaviour of the code that the model keeps:

- The `return` at `src/workers.py:110` is inside the `try`, so the
  `finally` at :123-124 still emits `tick` for a task that sees the
  interruption flag. `AudioWorker.RunTrace` and `AudioWorker.CancelledRun`
  prove one tick per pair and one `done` for every input, cancellation
  included.
- `not path.exists(f) or path.getsize(f) != int(...)` short-circuits. When
  the file is absent, the `Content-Length` header is never read, so a
  missing or malformed header does not stop the download. A header error
  happens only when the file already exists (`Failed(HeaderError)`, nothing
  written).
- `open(f, 'wb')` truncates before any chunk is written. A stream or write
  error after some chunks therefore leaves a partial file holding the chunks
  written so far (`Failed(StreamError)`). A failed `open` leaves the file as
  it was (`Failed(OpenError)`).
- `WordDownloadWorker` and `SentenceTranslateDownloadWorker` run the same
  loop, so `BatchWorker.WordDownload` and
  `BatchWorker.SentenceTranslateDownload` have the same contract.
- `WordExampleDownloadWorker` evaluates `row['id']` before calling the
  provider. A row without `id` raises there: no `insertWordExamples` call is
  made for it, and the run ends.

## Model

| member | source | states |
|---|---|---|
| BatchWorker.RunFrom | src/workers.py:40-46 | the loop itself, from item i on; its contract: at most a call and a tick per remaining item plus `done`, and `done`, when emitted, is the last event of a run that returned; its closed form is `Shape` |
| BatchWorker.BatchRun | src/workers.py:37-46 | one `run()` of a batch worker, the loop from the first item; same contract as `RunFrom`; properties in `Shape`, `RunInvariants` and the run lemmas |
| BatchWorker.StopIndex | src/workers.py:40-44 | the loop stops at the first item whose poll sees the flag, whose argument raises, or whose provider call raises; every earlier item passed all three |
| BatchWorker.ShapeFrom | src/workers.py:40-46 | from any position, the loop emits a call and a tick for each clean item up to the stop point, then `done`, nothing (flag or argument error), or the failed call |
| BatchWorker.Shape | src/workers.py:37-46 | every run equals the closed form: handled prefix, then an ending fixed by why the loop stopped; the run raises exactly when it stopped at an item whose poll saw the flag clear (computing the argument or the provider call raised) |
| Signals.TickedCounts | src/workers.py:43-44 | a handled sequence of calls holds one tick per call, no `done`, and the calls carry exactly the given arguments in order |
| BatchWorker.CompletedRun | src/workers.py:40-46 | with no interruption and no failure the trace is `Insert(a1),Tick,…,Insert(an),Tick,Done` for the items' arguments: n ticks, one `done`, and `done` last |
| BatchWorker.CancelledRun | src/workers.py:40-42 | flag first seen before item k: exactly the calls for items[..k], k ticks, no `done`, normal return |
| BatchWorker.FailedRun | src/workers.py:40-46 | the provider call for item k raises: trace ends with that attempted call, k ticks, no later item, no `done`, and the exception escapes |
| BatchWorker.ArgumentFailedRun | src/workers.py:40-46 | computing item k's argument raises: the run ends with no call and no tick for item k, k ticks, no later item, no `done`, and the exception escapes |
| BatchWorker.RunInvariants | src/workers.py:37-46 | for every input: k ticks where k is the stop position; the calls carry the arguments of items 0..k-1, plus item k's only when its own call raised; at most one `done`, present iff every item was clean, and then last; the run raises iff it stopped at an item whose poll saw the flag clear |
| BatchWorker.WordDownload | src/workers.py:37-46 | one tick per word before the stop position; at most one `done`, emitted iff no poll saw the flag and no `insertWord` raised, and then every word was inserted in order, ticked, and `done` is last; otherwise the inserted words are a prefix of the provider's words |
| BatchWorker.WordExampleDownload | src/workers.py:58-67 | one tick per row before the stop position; at most one `done`, emitted iff no poll saw the flag, every row has `id`, and no `insertWordExamples` raised, and then every row's `id` was passed and ticked and `done` is last; the calls carry the `id` of a prefix of the rows, in order |
| BatchWorker.RowId | src/workers.py:64 | `row['id']` yields the row's `id` value exactly when the row has that column, and raises otherwise |
| BatchWorker.MissingIdAborts | src/workers.py:64 | a row without `id`, reached with the flag clear, raises before `insertWordExamples` is called: the trace holds only the earlier rows' calls and ticks, no `done`, and the exception escapes |
| BatchWorker.SentenceTranslateDownload | src/workers.py:79-88 | one tick per row before the stop position; at most one `done`, emitted iff no poll saw the flag and no `insertSentenceTranslates` raised, and then every row was passed in order, ticked, and `done` is last; otherwise the rows passed are a prefix |
| AudioWorker.WriteChunks | src/workers.py:114-117 | writing the chunks in order, skipping empty ones, appends exactly their concatenation |
| AudioWorker.Download | src/workers.py:107-122 | only the destination may change and no file disappears; the write branch is taken iff the flag is clear, the request succeeded, and the file is absent or its size differs from a parsed `Content-Length`; on that branch a failed `open` is `OpenError` with the file unchanged, otherwise the file holds the concatenated chunks and the outcome is `StreamError` iff the stream broke, else `Written`; skip iff the file is present at the declared length; flag set, request error and header error leave the filesystem unchanged; every exception becomes a `Failed` outcome |
| AudioWorker.Submit | src/workers.py:123-128 | submitting the pairs yields one outcome and one tick per pair; no file disappears; paths that are not destinations are unchanged |
| AudioWorker.AudioRun | src/workers.py:126-129 | submit every pair, then `done`: one outcome per pair, one tick per pair and `done` last; further properties in `RunTrace` and `RunPerPair` |
| AudioWorker.RunTrace | src/workers.py:123-129 | for every input, cancellation included, a run emits one tick per pair and no provider call, then exactly one `done` as the last event, and leaves non-destination paths unchanged |
| AudioWorker.DownloadLocal | src/workers.py:107-122 | a task reads and writes only its destination: filesystems that agree there give the same outcome and the same file |
| AudioWorker.SubmitPerPair | src/workers.py:126-128 | with pairwise distinct destinations, each pair's outcome and final file under the fold are those of its own task run on the initial filesystem |
| AudioWorker.RunPerPair | src/workers.py:126-129 | the same for a whole run: with distinct destinations the submission order does not change any pair's outcome or file |
| AudioWorker.CancelledSubmit | src/workers.py:109-110 | tasks that all see the flag write nothing and end cancelled |
| AudioWorker.CancelledRun | src/workers.py:107-129 | a run under interruption leaves the filesystem unchanged yet still emits one tick per pair and `done` |
| AudioWorker.CompleteSubmit | src/workers.py:113-120 | tasks whose destinations are all complete skip and leave the filesystem unchanged |
| AudioWorker.CompleteRun | src/workers.py:113-129 | re-running against complete destinations writes nothing and still emits one tick per pair and `done` |
| AudioWorker.RedownloadSkips | src/workers.py:113-120 | after a completed write whose declared length matches the body, downloading the same response again is a skip |
| AudioWorker.Split | src/workers.py:115 | `iter_content` cuts an undecoded body into non-empty chunks of at most the chunk size |
| AudioWorker.SplitFlatten | src/workers.py:115-117 | concatenating the chunks of a cut body gives back the body |
| AudioWorker.WrittenBody | src/workers.py:111-117 | a completed download of an undecoded body stores exactly that body at the destination |
| AudioWorker.ScenarioFreshFile | src/workers.py:104-129 | absent destination and a 100-byte response: one write of 100 bytes, one tick, one `done` |
| AudioWorker.ScenarioCompleteFile | src/workers.py:104-129 | destination already at 100 bytes: no write, one tick, one `done` |
| AudioWorker.ScenarioServerError | src/workers.py:107-129 | a request that fails after the session's retries: nothing written, failure swallowed, one tick, one `done` |
| LoginWorker.LoginCheck | src/workers.py:20-25 | exactly one terminal signal unless a call raises; `logSuccess(json(cookie))` iff `checkFn(cookie)` is truthy, `logFailed` iff it is falsy |

## Left out

- Qt objects, signals and threads: signals are appends to a trace, and the interruption flag is an input oracle.
- The `requests` session and urllib3 `Retry` (src/workers.py:95-98): the retry count, backoff timing and status list are recorded as constants (`RetryTotal`, `BackoffFactor`, `RetryStatuses`). How many attempts are made and how long they wait is library behaviour and wall-clock time. A request that still fails is `RequestFailed`.
- `ThreadPool(max_workers=3)`: the bound is recorded as `PoolWorkers`. The pool is modelled as a sequential fold in submission order. The interleaving of ticks is not modelled. Two pairs with the same destination would race in the pool; the fold gives them submission order, and `AudioWorker.RunPerPair` covers only distinct destinations.
- Real filesystem and network I/O: the filesystem is a map and a response is a record. `path.getsize` failing between the existence test and the size test is not modelled.
- Logging calls: side-channel text only.
- `json.dumps`, `checkFn` and the provider methods (`getAllWords`, `insertWord`, …): opaque parameters. `getAllWords` and the other enumerations are given as a finite sequence, so an enumeration that raises is not modelled.
- Python truthiness of `checkFn`'s result: abstracted to a boolean.
- `Content-Length` parsing: `int(...)` is abstracted to an optional integer, with `None` for a missing or unparsable header.
- Content decoding in `iter_content`: `Split` models only an undecoded body. Otherwise the network's chunks are an input.
- A partial write inside one chunk is not modelled. A stream or write error is taken to happen between chunks.

=== FILE: audio_worker.dfy ===
/**
 `AudioDownloadWorker.run` and its inner `__download` task.

 The filesystem is a map from path to file content; `path.exists` is
 membership and `path.getsize` is the content's length. Everything a task
 observes from outside (the interruption flag at its start, the HTTP
 exchange, whether `open` succeeds) is one `TaskEnv`. The thread pool is a
 sequential fold over the pairs in submission order: ticks carry no
 payload, and when no two pairs share a destination each pair's result does
 not depend on that order (`RunPerPair`).
 */
module AudioWorker {
  import opened Wrappers
  import opened Signals

  newtype byte = x: int | 0 <= x < 256

  type Path = string
  type Url = string
  type FileSystem = map<Path, seq<byte>>

  /** One work item: destination file name and source URL. */
  type Audio = (Path, Url)

  /** Configuration of the shared session and the pool, recorded only. */
  const RetryTotal: nat := 5
  const BackoffFactor: nat := 3
  const RetryStatuses: set<int> := {500, 502, 503, 504}
  const PoolWorkers: nat := 3
  /** Chunk size passed to `iter_content`. */
  const ChunkSize: nat := 1024

  /** A streamed response. `contentLength` is `int(headers['Content-Length'])`,
      `None` when the header is missing or not an integer. `chunks` are the
      chunks the body iterator yields; when `breaks` holds, the iterator (or
      the write of the next chunk) raises after them. */
  datatype Response = Response(contentLength: Option<int>, chunks: seq<seq<byte>>, breaks: bool)

  /** The result of `session.get`: it raises (connection error, retries
      exhausted) or yields a response. */
  datatype Fetch = RequestFailed | Received(response: Response)

  /** What one task observes: the interruption flag at its start, the HTTP
      exchange, and whether `open(fileName, 'wb')` succeeds. */
  datatype TaskEnv = TaskEnv(interrupted: bool, fetch: Fetch, canOpen: bool)

  /** The exception a task swallows. */
  datatype Failure = RequestError | HeaderError | OpenError | StreamError

  /** How one task ended; `Failed` is the `except` branch. */
  datatype Outcome = Cancelled | Skipped | Written | Failed(failure: Failure)

  datatype TaskResult = TaskResult(fs: FileSystem, outcome: Outcome)

  /** In-order concatenation of chunks. */
  function Flatten(chunks: seq<seq<byte>>): seq<byte>
  {
    if chunks == [] then [] else chunks[0] + Flatten(chunks[1..])
  }

  /** The write loop: append each non-empty chunk to what is already written. */
  function WriteChunks(written: seq<byte>, chunks: seq<seq<byte>>): (r: seq<byte>)
    ensures r == written + Flatten(chunks)
    decreases |chunks|
  {
    if chunks == [] then written
    else
      var next := if chunks[0] != [] then written + chunks[0] else written;
      assert next == written + chunks[0];
      WriteChunks(next, chunks[1..])
  }

  /** The destination already holds a file of the declared length. */
  predicate Complete(fs: FileSystem, fileName: Path, contentLength: Option<int>)
  {
    fileName in fs && contentLength == Some(|fs[fileName]|)
  }

  /** The outcomes on which the file was opened for writing (and so truncated). */
  predicate Opened(o: Outcome)
  {
    o.Written? || o == Failed(StreamError)
  }

  /** The outcomes reached past the skip test, on the write branch. */
  predicate WriteBranch(o: Outcome)
  {
    Opened(o) || o == Failed(OpenError)
  }

  /** One `__download(fileName, url)` task, minus its `finally` tick. */
  function Download(fs: FileSystem, fileName: Path, env: TaskEnv): (r: TaskResult)
    // nothing but the destination changes, and no file disappears
    ensures r.fs - {fileName} == fs - {fileName}
    ensures fs.Keys <= r.fs.Keys
    ensures !Opened(r.outcome) ==> r.fs == fs
    ensures Opened(r.outcome) ==> env.fetch.Received? && r.fs == fs[fileName := Flatten(env.fetch.response.chunks)]
    // the decision
    ensures r.outcome == Cancelled <==> env.interrupted
    ensures r.outcome == Failed(RequestError) <==> !env.interrupted && env.fetch.RequestFailed?
    ensures r.outcome == Failed(HeaderError) <==>
      !env.interrupted && env.fetch.Received? && fileName in fs && env.fetch.response.contentLength.None?
    ensures r.outcome == Skipped <==>
      !env.interrupted && env.fetch.Received? && Complete(fs, fileName, env.fetch.response.contentLength)
    ensures WriteBranch(r.outcome) <==>
      && !env.interrupted && env.fetch.Received?
      && (fileName !in fs
          || (env.fetch.response.contentLength.Some? && |fs[fileName]| != env.fetch.response.contentLength.value))
    ensures r.outcome == Failed(OpenError) <==> WriteBranch(r.outcome) && !env.canOpen
    ensures r.outcome == Failed(StreamError) <==>
      WriteBranch(r.outcome) && env.canOpen && env.fetch.response.breaks
    ensures r.outcome == Written <==>
      WriteBranch(r.outcome) && env.canOpen && !env.fetch.response.breaks
  {
    if env.interrupted then TaskResult(fs, Cancelled)
    else match env.fetch
      case RequestFailed => TaskResult(fs, Failed(RequestError))
      case Received(resp) =>
        if fileName in fs && resp.contentLength.None? then TaskResult(fs, Failed(HeaderError))
        else if fileName !in fs || |fs[fileName]| != resp.contentLength.value then
          if !env.canOpen then TaskResult(fs, Failed(OpenError))
          else
            var content := WriteChunks([], resp.chunks);
            assert content == Flatten(resp.chunks);
            var fs' := fs[fileName := content];
            TaskResult(fs', if resp.breaks then Failed(StreamError) else Written)
        else TaskResult(fs, Skipped)
  }

  /** All tasks of a run: the filesystem afterwards, each task's outcome in
      submission order, and the signals emitted. */
  datatype AudioBatch = AudioBatch(fs: FileSystem, outcomes: seq<Outcome>, trace: seq<Event<Audio>>)

  /** Destinations of the pairs from position `i` on. */
  function Dests(audios: seq<Audio>, i: nat): set<Path>
  {
    set j | i <= j < |audios| :: audios[j].0
  }

  /** Submit the pairs from position `i` on; each task emits its tick in
      `finally`, whatever its outcome. */
  function Submit(audios: seq<Audio>, i: nat, fs: FileSystem, env: nat -> TaskEnv): (r: AudioBatch)
    requires i <= |audios|
    ensures |r.outcomes| == |audios| - i
    ensures r.trace == TickRun(|audios| - i)
    ensures fs.Keys <= r.fs.Keys
    ensures r.fs - Dests(audios, i) == fs - Dests(audios, i)
    decreases |audios| - i
  {
    if i == |audios| then AudioBatch(fs, [], [])
    else
      var t := Download(fs, audios[i].0, env(i));
      var rest := Submit(audios, i + 1, t.fs, env);
      var f, d := audios[i].0, Dests(audios, i + 1);
      assert Dests(audios, i) == {f} + d;
      assert rest.fs - Dests(audios, i) == (rest.fs - d) - {f};
      assert (t.fs - d) - {f} == (t.fs - {f}) - d;
      assert fs - Dests(audios, i) == (fs - {f}) - d;
      AudioBatch(rest.fs, [t.outcome] + rest.outcomes, [Tick] + rest.trace)
  }

  /** One `run()`: submit every pair, wait for the pool, then emit `done`. */
  function AudioRun(audios: seq<Audio>, fs: FileSystem, env: nat -> TaskEnv): (r: AudioBatch)
    ensures |r.outcomes| == |audios|
    ensures |r.trace| == |audios| + 1 && Last(r.trace) == Done
    ensures forall j | 0 <= j < |audios| :: r.trace[j] == Tick
  {
    var b := Submit(audios, 0, fs, env);
    AudioBatch(b.fs, b.outcomes, b.trace + [Done])
  }

  /** Whatever each task observes, cancellation included, a run emits one
      tick per pair followed by exactly one `done`, and leaves every path
      that is not a destination as it was. */
  lemma RunTrace(audios: seq<Audio>, fs: FileSystem, env: nat -> TaskEnv)
    ensures var r := AudioRun(audios, fs, env);
      && r.trace == TickRun(|audios|) + [Done]
      && Ticks(r.trace) == |audios|
      && Dones(r.trace) == 1
      && Inserted(r.trace) == []
      && Last(r.trace) == Done
      && |r.outcomes| == |audios|
      && r.fs - Dests(audios, 0) == fs - Dests(audios, 0)
  {
    DoneCounts<Audio>();
    TickRunCounts<Audio>(|audios|);
    CountsOfConcat(TickRun<Audio>(|audios|), [Done]);
  }

  /** `fs1` and `fs2` agree at path `p`. */
  predicate SameAt(fs1: FileSystem, fs2: FileSystem, p: Path)
  {
    (p in fs1 <==> p in fs2) && (p in fs1 ==> fs1[p] == fs2[p])
  }

  /** A task reads and writes its own destination only: two filesystems
      that agree there give the same outcome and the same file. */
  lemma DownloadLocal(fs1: FileSystem, fs2: FileSystem, fileName: Path, env: TaskEnv)
    requires SameAt(fs1, fs2, fileName)
    ensures Download(fs1, fileName, env).outcome == Download(fs2, fileName, env).outcome
    ensures SameAt(Download(fs1, fileName, env).fs, Download(fs2, fileName, env).fs, fileName)
  {
  }

  /** No two pairs from position `i` on share a destination. */
  predicate DistinctDests(audios: seq<Audio>, i: nat)
  {
    forall a, b | i <= a < b < |audios| :: audios[a].0 != audios[b].0
  }

  /** With distinct destinations, the sequential fold gives each pair the
      outcome and the final file that its task alone would give on the
      initial filesystem, so the order in which the pool runs the tasks
      does not matter. */
  lemma {:induction false} SubmitPerPair(audios: seq<Audio>, i: nat, fs: FileSystem, env: nat -> TaskEnv)
    requires i <= |audios|
    requires DistinctDests(audios, i)
    ensures forall j | i <= j < |audios| ::
      && Submit(audios, i, fs, env).outcomes[j - i] == Download(fs, audios[j].0, env(j)).outcome
      && SameAt(Submit(audios, i, fs, env).fs, Download(fs, audios[j].0, env(j)).fs, audios[j].0)
    decreases |audios| - i
  {
    if i < |audios| {
      var f := audios[i].0;
      var t := Download(fs, f, env(i));
      var rest := Submit(audios, i + 1, t.fs, env);
      var r := Submit(audios, i, fs, env);
      SubmitPerPair(audios, i + 1, t.fs, env);
      assert f !in Dests(audios, i + 1);
      assert SameAt(rest.fs, t.fs, f) by {
        assert f in rest.fs <==> f in rest.fs - Dests(audios, i + 1);
        assert f in t.fs <==> f in t.fs - Dests(audios, i + 1);
        if f in rest.fs {
          assert rest.fs[f] == (rest.fs - Dests(audios, i + 1))[f];
          assert t.fs[f] == (t.fs - Dests(audios, i + 1))[f];
        }
      }
      forall j | i < j < |audios|
        ensures r.outcomes[j - i] == Download(fs, audios[j].0, env(j)).outcome
        ensures SameAt(r.fs, Download(fs, audios[j].0, env(j)).fs, audios[j].0)
      {
        var g := audios[j].0;
        assert g != f;
        assert SameAt(t.fs, fs, g) by {
          assert g in t.fs <==> g in t.fs - {f};
          assert g in fs <==> g in fs - {f};
          if g in t.fs {
            assert t.fs[g] == (t.fs - {f})[g];
            assert fs[g] == (fs - {f})[g];
          }
        }
        DownloadLocal(t.fs, fs, g, env(j));
        assert r.outcomes[j - i] == rest.outcomes[j - (i + 1)];
      }
    }
  }

  /** With distinct destinations, each pair's outcome and final file in a
      run are those of its own task on the initial filesystem. */
  lemma RunPerPair(audios: seq<Audio>, fs: FileSystem, env: nat -> TaskEnv)
    requires DistinctDests(audios, 0)
    ensures forall j | 0 <= j < |audios| ::
      && AudioRun(audios, fs, env).outcomes[j] == Download(fs, audios[j].0, env(j)).outcome
      && SameAt(AudioRun(audios, fs, env).fs, Download(fs, audios[j].0, env(j)).fs, audios[j].0)
  {
    SubmitPerPair(audios, 0, fs, env);
  }

  /** Tasks that all see the flag set change nothing and end `Cancelled`. */
  lemma {:induction false} CancelledSubmit(audios: seq<Audio>, i: nat, fs: FileSystem, env: nat -> TaskEnv)
    requires i <= |audios|
    requires forall j | i <= j < |audios| :: env(j).interrupted
    ensures Submit(audios, i, fs, env).fs == fs
    ensures forall j | 0 <= j < |audios| - i :: Submit(audios, i, fs, env).outcomes[j] == Cancelled
    decreases |audios| - i
  {
    if i < |audios| {
      CancelledSubmit(audios, i + 1, fs, env);
    }
  }

  /** A run started with the flag already set writes nothing, yet still
      emits one tick per pair and `done`. */
  lemma {:induction false} CancelledRun(audios: seq<Audio>, fs: FileSystem, env: nat -> TaskEnv)
    requires forall j | 0 <= j < |audios| :: env(j).interrupted
    ensures AudioRun(audios, fs, env).fs == fs
    ensures forall j | 0 <= j < |audios| :: AudioRun(audios, fs, env).outcomes[j] == Cancelled
    ensures AudioRun(audios, fs, env).trace == TickRun(|audios|) + [Done]
  {
    CancelledSubmit(audios, 0, fs, env);
  }

  /** Every destination already complete and every request answered: every
      task skips and the filesystem is unchanged. */
  lemma {:induction false} CompleteSubmit(audios: seq<Audio>, i: nat, fs: FileSystem, env: nat -> TaskEnv)
    requires i <= |audios|
    requires forall j | i <= j < |audios| ::
      !env(j).interrupted && env(j).fetch.Received? && Complete(fs, audios[j].0, env(j).fetch.response.contentLength)
    ensures Submit(audios, i, fs, env).fs == fs
    ensures forall j | 0 <= j < |audios| - i :: Submit(audios, i, fs, env).outcomes[j] == Skipped
    decreases |audios| - i
  {
    if i < |audios| {
      CompleteSubmit(audios, i + 1, fs, env);
    }
  }

  /** Re-running against an already complete destination set writes nothing
      and still reports one tick per pair and `done`. */
  lemma {:induction false} CompleteRun(audios: seq<Audio>, fs: FileSystem, env: nat -> TaskEnv)
    requires forall j | 0 <= j < |audios| ::
      !env(j).interrupted && env(j).fetch.Received? && Complete(fs, audios[j].0, env(j).fetch.response.contentLength)
    ensures AudioRun(audios, fs, env).fs == fs
    ensures forall j | 0 <= j < |audios| :: AudioRun(audios, fs, env).outcomes[j] == Skipped
    ensures AudioRun(audios, fs, env).trace == TickRun(|audios|) + [Done]
  {
    CompleteSubmit(audios, 0, fs, env);
  }

  /** A file written from a response whose declared length matches its body
      is skipped by a second download of the same response. */
  lemma RedownloadSkips(fs: FileSystem, fileName: Path, env: TaskEnv, again: TaskEnv)
    requires Download(fs, fileName, env).outcome == Written
    requires env.fetch.response.contentLength == Some(|Flatten(env.fetch.response.chunks)|)
    requires !again.interrupted && again.fetch == env.fetch
    ensures Download(Download(fs, fileName, env).fs, fileName, again) ==
      TaskResult(Download(fs, fileName, env).fs, Skipped)
  {
  }

  /** How `iter_content(chunk_size=size)` cuts an undecoded body. */
  function Split(body: seq<byte>, size: nat): (chunks: seq<seq<byte>>)
    requires size > 0
    ensures forall j | 0 <= j < |chunks| :: 0 < |chunks[j]| <= size
    decreases |body|
  {
    if |body| <= size then (if body == [] then [] else [body])
    else [body[..size]] + Split(body[size..], size)
  }

  /** Cutting the body into chunks and writing them back reproduces it. */
  lemma {:induction false} SplitFlatten(body: seq<byte>, size: nat)
    requires size > 0
    ensures Flatten(Split(body, size)) == body
    decreases |body|
  {
    if |body| <= size {
      if body != [] {
        assert Flatten([body]) == body + Flatten([]);
      }
    } else {
      var cs := Split(body, size);
      assert cs[0] == body[..size];
      assert cs[1..] == Split(body[size..], size);
      SplitFlatten(body[size..], size);
      assert body == body[..size] + body[size..];
    }
  }

  /** A completed write of an undecoded body stores exactly that body. */
  lemma WrittenBody(fs: FileSystem, fileName: Path, body: seq<byte>, contentLength: Option<int>, canOpen: bool)
    requires canOpen
    requires fileName !in fs || contentLength != Some(|fs[fileName]|)
    requires fileName in fs ==> contentLength.Some?
    ensures var env := TaskEnv(false, Received(Response(contentLength, Split(body, ChunkSize), false)), canOpen);
      Download(fs, fileName, env) == TaskResult(fs[fileName := body], Written)
  {
    SplitFlatten(body, ChunkSize);
  }

  /** A 100-byte body, as in the scenarios below. */
  const Body100: seq<byte> := seq(100, _ => 0 as byte)

  /** The one pair of the scenarios below. */
  const ScenarioPair: Audio := ("/tmp/a.mp3", "http://x/a.mp3")

  /** Absent destination, response declaring and carrying 100 bytes: one
      write leaving a 100-byte file, one tick, one `done`. */
  lemma ScenarioFreshFile()
    ensures var env := (_: nat) => TaskEnv(false, Received(Response(Some(100), Split(Body100, ChunkSize), false)), true);
      var r := AudioRun([ScenarioPair], map[], env);
      && r.fs == map[ScenarioPair.0 := Body100]
      && r.outcomes == [Written]
      && r.trace == [Tick, Done]
  {
    var env := (_: nat) => TaskEnv(false, Received(Response(Some(100), Split(Body100, ChunkSize), false)), true);
    WrittenBody(map[], ScenarioPair.0, Body100, Some(100), true);
    SingleTask(map[], env);
  }

  /** A run over the scenario pair is its one task, then `done`. */
  lemma SingleTask(fs: FileSystem, env: nat -> TaskEnv)
    ensures var t := Download(fs, ScenarioPair.0, env(0));
      AudioRun([ScenarioPair], fs, env) == AudioBatch(t.fs, [t.outcome], [Tick, Done])
  {
    var t := Download(fs, ScenarioPair.0, env(0));
    assert Submit([ScenarioPair], 1, t.fs, env) == AudioBatch(t.fs, [], []);
  }

  /** Destination already present at 100 bytes: no write, one tick, one `done`. */
  lemma ScenarioCompleteFile(old100: seq<byte>)
    requires |old100| == 100
    ensures var env := (_: nat) => TaskEnv(false, Received(Response(Some(100), Split(Body100, ChunkSize), false)), true);
      var fs := map[ScenarioPair.0 := old100];
      var r := AudioRun([ScenarioPair], fs, env);
      && r.fs == fs
      && r.outcomes == [Skipped]
      && r.trace == [Tick, Done]
  {
    var env := (_: nat) => TaskEnv(false, Received(Response(Some(100), Split(Body100, ChunkSize), false)), true);
    SingleTask(map[ScenarioPair.0 := old100], env);
  }

  /** The request keeps failing until the session gives up: the failure is
      swallowed, nothing is written, and the tick and `done` still fire. */
  lemma ScenarioServerError(fs: FileSystem)
    ensures var r := AudioRun([ScenarioPair], fs, (_: nat) => TaskEnv(false, RequestFailed, true));
      && r.fs == fs
      && r.outcomes == [Failed(RequestError)]
      && r.trace == [Tick, Done]
  {
    SingleTask(fs, (_: nat) => TaskEnv(false, RequestFailed, true));
  }
}

=== FILE: batch_worker.dfy ===
/**
 The loop shared by `WordDownloadWorker`, `WordExampleDownloadWorker` and
 `SentenceTranslateDownloadWorker`: walk the provider's items, poll the
 interruption flag before each one and return if it is set, otherwise issue
 the provider call for the item and emit `tick`; emit `done` after the loop.
 There is no `try`: an exception in the loop body ends the run at once.

 `arg` computes the provider call's argument from an item; `None` means that
 computing it raises, before the provider is called. The interruption flag
 and the provider's failures are oracles indexed by item position:
 `interrupted(i)` is the flag value seen at the poll before item `i`,
 `fails(i)` says whether the provider call for item `i` raises.
 */
module BatchWorker {
  import opened Wrappers
  import opened Signals

  /** Item `i` gets past the poll, its argument is computed and its provider
      call returns. */
  predicate Clean<T, A>(items: seq<T>, arg: T -> Option<A>, interrupted: nat -> bool, fails: nat -> bool, i: nat)
    requires i < |items|
  {
    !interrupted(i) && arg(items[i]).Some? && !fails(i)
  }

  /** The loop from item `i` on. */
  function RunFrom<T, A>(items: seq<T>, i: nat, arg: T -> Option<A>, interrupted: nat -> bool, fails: nat -> bool): (r: Run<Event<A>>)
    requires i <= |items|
    // at most a call and a tick per remaining item, then `done`
    ensures |r.trace| <= 2 * (|items| - i) + 1
    // `done`, when emitted, is the last event of a run that returned
    ensures Done in r.trace ==> r.exit.Returned? && Last(r.trace) == Done
    decreases |items| - i
  {
    if i == |items| then Run([Done], Returned)
    else if interrupted(i) then Run([], Returned)
    else match arg(items[i])
      case None => Run([], Raised)
      case Some(a) =>
        if fails(i) then Run([Insert(a)], Raised)
        else
          var rest := RunFrom(items, i + 1, arg, interrupted, fails);
          Run([Insert(a), Tick] + rest.trace, rest.exit)
  }

  /** One `run()` of a batch worker over the provider's items. */
  function BatchRun<T, A>(items: seq<T>, arg: T -> Option<A>, interrupted: nat -> bool, fails: nat -> bool): (r: Run<Event<A>>)
    ensures |r.trace| <= 2 * |items| + 1
    ensures Done in r.trace ==> r.exit.Returned? && Last(r.trace) == Done
  {
    RunFrom(items, 0, arg, interrupted, fails)
  }

  /** The position at which the loop stops: the first item from `i` on that
      is not clean, or `|items|` when every remaining item is clean. */
  function StopIndex<T, A>(items: seq<T>, i: nat, arg: T -> Option<A>, interrupted: nat -> bool, fails: nat -> bool): (k: nat)
    requires i <= |items|
    ensures i <= k <= |items|
    ensures forall j | i <= j < k :: !interrupted(j) && arg(items[j]).Some? && !fails(j)
    ensures k < |items| ==> !Clean(items, arg, interrupted, fails, k)
    decreases |items| - i
  {
    if i == |items| || !Clean(items, arg, interrupted, fails, i) then i
    else StopIndex(items, i + 1, arg, interrupted, fails)
  }

  /** The provider-call arguments of items whose arguments are all computable. */
  function Args<T, A>(s: seq<T>, arg: T -> Option<A>): (r: seq<A>)
    requires forall j | 0 <= j < |s| :: arg(s[j]).Some?
    ensures |r| == |s|
    ensures forall j | 0 <= j < |s| :: arg(s[j]) == Some(r[j])
  {
    if s == [] then [] else [arg(s[0]).value] + Args(s[1..], arg)
  }

  /** What the loop emits once it stops at `k`: `done` when every item was
      handled; nothing when the flag was seen or the argument raised; the
      attempted call when the provider raised. */
  function Ending<T, A>(items: seq<T>, k: nat, arg: T -> Option<A>, interrupted: nat -> bool): seq<Event<A>>
    requires k <= |items|
  {
    if k == |items| then [Done]
    else if interrupted(k) then []
    else match arg(items[k])
      case None => []
      case Some(a) => [Insert(a)]
  }

  /** The closed form of a run that stops at `k`: it raises exactly when the
      loop stopped at an item whose poll saw the flag clear. */
  function Expected<T, A>(items: seq<T>, k: nat, arg: T -> Option<A>, interrupted: nat -> bool): Run<Event<A>>
    requires k <= |items|
    requires forall j | 0 <= j < k :: arg(items[j]).Some?
  {
    Run(Ticked(Args(items[..k], arg)) + Ending(items, k, arg, interrupted),
        if k < |items| && !interrupted(k) then Raised else Returned)
  }

  lemma {:induction false} ShapeFrom<T, A>(items: seq<T>, i: nat, k: nat, arg: T -> Option<A>, interrupted: nat -> bool, fails: nat -> bool)
    requires i <= k <= |items|
    requires forall j | i <= j < k :: !interrupted(j) && arg(items[j]).Some? && !fails(j)
    requires k < |items| ==> !Clean(items, arg, interrupted, fails, k)
    ensures RunFrom(items, i, arg, interrupted, fails).trace == Ticked(Args(items[i..k], arg)) + Ending(items, k, arg, interrupted)
    ensures RunFrom(items, i, arg, interrupted, fails).exit == (if k < |items| && !interrupted(k) then Raised else Returned)
    decreases k - i
  {
    if i == k {
      assert items[i..k] == [];
    } else {
      assert Clean(items, arg, interrupted, fails, i);
      ShapeFrom(items, i + 1, k, arg, interrupted, fails);
      assert items[i..k][0] == items[i];
      assert items[i..k][1..] == items[i + 1..k];
    }
  }

  /** Every run has the closed form: the handled prefix `items[..k]`, then
      the ending, where `k` is the first item that is not clean. */
  lemma Shape<T, A>(items: seq<T>, k: nat, arg: T -> Option<A>, interrupted: nat -> bool, fails: nat -> bool)
    requires k <= |items|
    requires forall j | 0 <= j < k :: !interrupted(j) && arg(items[j]).Some? && !fails(j)
    requires k < |items| ==> !Clean(items, arg, interrupted, fails, k)
    ensures BatchRun(items, arg, interrupted, fails) == Expected(items, k, arg, interrupted)
  {
    ShapeFrom(items, 0, k, arg, interrupted, fails);
    assert items[0..k] == items[..k];
  }

  /** No interruption and no failure: `Insert(a1), Tick, ..., Insert(an), Tick, Done`
      for the items' arguments. There are as many ticks as items and one
      `done`, which is the last event. */
  lemma {:induction false} CompletedRun<T, A>(items: seq<T>, arg: T -> Option<A>, interrupted: nat -> bool, fails: nat -> bool)
    requires forall j | 0 <= j < |items| :: !interrupted(j) && arg(items[j]).Some? && !fails(j)
    ensures BatchRun(items, arg, interrupted, fails) == Run(Ticked(Args(items, arg)) + [Done], Returned)
    ensures Ticks(BatchRun(items, arg, interrupted, fails).trace) == |items|
    ensures Dones(BatchRun(items, arg, interrupted, fails).trace) == 1
    ensures Inserted(BatchRun(items, arg, interrupted, fails).trace) == Args(items, arg)
    ensures Last(BatchRun(items, arg, interrupted, fails).trace) == Done
  {
    Shape(items, |items|, arg, interrupted, fails);
    assert items[..|items|] == items;
    TickedCounts(Args(items, arg));
    DoneCounts<A>();
    CountsOfConcat(Ticked(Args(items, arg)), [Done]);
  }

  /** The flag is first seen before item `k`: exactly the first `k` items'
      calls are made, each with its tick, and the run returns without `done`. */
  lemma CancelledRun<T, A>(items: seq<T>, k: nat, arg: T -> Option<A>, interrupted: nat -> bool, fails: nat -> bool)
    requires k < |items|
    requires forall j | 0 <= j < k :: !interrupted(j) && arg(items[j]).Some? && !fails(j)
    requires interrupted(k)
    ensures BatchRun(items, arg, interrupted, fails) == Run(Ticked(Args(items[..k], arg)), Returned)
    ensures Inserted(BatchRun(items, arg, interrupted, fails).trace) == Args(items[..k], arg)
    ensures Ticks(BatchRun(items, arg, interrupted, fails).trace) == k
    ensures Dones(BatchRun(items, arg, interrupted, fails).trace) == 0
  {
    Shape(items, k, arg, interrupted, fails);
    assert Ticked(Args(items[..k], arg)) + [] == Ticked(Args(items[..k], arg));
    TickedCounts(Args(items[..k], arg));
  }

  /** The provider call for item `k` raises: the run ends with that attempted
      call, with no tick for it, no later item and no `done`. */
  lemma FailedRun<T, A>(items: seq<T>, k: nat, arg: T -> Option<A>, interrupted: nat -> bool, fails: nat -> bool)
    requires k < |items|
    requires forall j | 0 <= j < k :: !interrupted(j) && arg(items[j]).Some? && !fails(j)
    requires !interrupted(k) && arg(items[k]).Some? && fails(k)
    ensures BatchRun(items, arg, interrupted, fails) ==
      Run(Ticked(Args(items[..k], arg)) + [Insert(arg(items[k]).value)], Raised)
    ensures Inserted(BatchRun(items, arg, interrupted, fails).trace) == Args(items[..k + 1], arg)
    ensures Ticks(BatchRun(items, arg, interrupted, fails).trace) == k
    ensures Dones(BatchRun(items, arg, interrupted, fails).trace) == 0
  {
    Shape(items, k, arg, interrupted, fails);
    var a := arg(items[k]).value;
    TickedCounts(Args(items[..k], arg));
    InsertCounts(a);
    CountsOfConcat(Ticked(Args(items[..k], arg)), [Insert(a)]);
    assert Args(items[..k + 1], arg) == Args(items[..k], arg) + [a];
  }

  /** Computing item `k`'s argument raises: the run ends there, with no call
      and no tick for item `k`, no later item and no `done`. */
  lemma ArgumentFailedRun<T, A>(items: seq<T>, k: nat, arg: T -> Option<A>, interrupted: nat -> bool, fails: nat -> bool)
    requires k < |items|
    requires forall j | 0 <= j < k :: !interrupted(j) && arg(items[j]).Some? && !fails(j)
    requires !interrupted(k) && arg(items[k]).None?
    ensures BatchRun(items, arg, interrupted, fails) == Run(Ticked(Args(items[..k], arg)), Raised)
    ensures Inserted(BatchRun(items, arg, interrupted, fails).trace) == Args(items[..k], arg)
    ensures Ticks(BatchRun(items, arg, interrupted, fails).trace) == k
    ensures Dones(BatchRun(items, arg, interrupted, fails).trace) == 0
  {
    Shape(items, k, arg, interrupted, fails);
    assert Ticked(Args(items[..k], arg)) + [] == Ticked(Args(items[..k], arg));
    TickedCounts(Args(items[..k], arg));
  }

  /** For every input, with `k` the stop position: one tick per item before
      `k`; the calls are made with the arguments of items `0..k-1`, plus item
      `k`'s when its own call raised; at most one `done`, present exactly
      when every item was clean and then last; and the run raises exactly
      when it stopped at an item whose poll saw the flag clear. */
  lemma RunInvariants<T, A>(items: seq<T>, arg: T -> Option<A>, interrupted: nat -> bool, fails: nat -> bool)
    ensures var r := BatchRun(items, arg, interrupted, fails);
      var k := StopIndex(items, 0, arg, interrupted, fails);
      && Ticks(r.trace) == k
      && k <= |Inserted(r.trace)| <= k + 1
      && (|Inserted(r.trace)| == k + 1 <==> k < |items| && !interrupted(k) && arg(items[k]).Some? && fails(k))
      && |Inserted(r.trace)| <= |items|
      && (forall j | 0 <= j < |Inserted(r.trace)| :: arg(items[j]) == Some(Inserted(r.trace)[j]))
      && Dones(r.trace) <= 1
      && (Dones(r.trace) == 1 <==> forall j | 0 <= j < |items| :: !interrupted(j) && arg(items[j]).Some? && !fails(j))
      && (Dones(r.trace) == 1 ==> r.exit.Returned? && Last(r.trace) == Done)
      && (r.exit.Raised? <==> k < |items| && !interrupted(k))
  {
    var k := StopIndex(items, 0, arg, interrupted, fails);
    if k == |items| {
      CompletedRun(items, arg, interrupted, fails);
    } else if interrupted(k) {
      CancelledRun(items, k, arg, interrupted, fails);
    } else if arg(items[k]).None? {
      ArgumentFailedRun(items, k, arg, interrupted, fails);
    } else {
      FailedRun(items, k, arg, interrupted, fails);
    }
  }

  /** The argument of `insertWord` and `insertSentenceTranslates`: the item itself. */
  function Itself<T>(x: T): Option<T>
  {
    Some(x)
  }

  /** `WordDownloadWorker.run`: one `insertWord(word)` per word. */
  function WordDownload<W>(words: seq<W>, interrupted: nat -> bool, fails: nat -> bool): (r: Run<Event<W>>)
    ensures Dones(r.trace) == 1 <==> forall j | 0 <= j < |words| :: !interrupted(j) && !fails(j)
    ensures Inserted(r.trace) <= words
    ensures Dones(r.trace) <= 1
    ensures Ticks(r.trace) == StopIndex(words, 0, Itself, interrupted, fails)
    ensures Dones(r.trace) == 1 ==> Inserted(r.trace) == words && Ticks(r.trace) == |words| && Last(r.trace) == Done
  {
    RunInvariants(words, Itself, interrupted, fails);
    BatchRun(words, Itself, interrupted, fails)
  }

  /** A row of the provider's result, keyed by column name. */
  type Row<V> = map<string, V>

  /** `row['id']`: raises when the row has no `id` column. */
  function RowId<V>(row: Row<V>): (r: Option<V>)
    ensures r.Some? <==> "id" in row
    ensures r.Some? ==> r.value == row["id"]
  {
    if "id" in row then Some(row["id"]) else None
  }

  /** `WordExampleDownloadWorker.run`: one `insertWordExamples(row['id'])` per row. */
  function WordExampleDownload<V>(rows: seq<Row<V>>, interrupted: nat -> bool, fails: nat -> bool): (r: Run<Event<V>>)
    ensures Dones(r.trace) == 1 <==>
      forall j | 0 <= j < |rows| :: !interrupted(j) && "id" in rows[j] && !fails(j)
    ensures |Inserted(r.trace)| <= |rows|
    ensures forall j | 0 <= j < |Inserted(r.trace)| :: "id" in rows[j] && Inserted(r.trace)[j] == rows[j]["id"]
    ensures Dones(r.trace) <= 1
    ensures Ticks(r.trace) == StopIndex(rows, 0, RowId, interrupted, fails)
    ensures Dones(r.trace) == 1 ==> |Inserted(r.trace)| == |rows| && Ticks(r.trace) == |rows| && Last(r.trace) == Done
  {
    RunInvariants(rows, RowId, interrupted, fails);
    BatchRun(rows, RowId, interrupted, fails)
  }

  /** A row without `id`, reached with the flag clear, aborts the run there:
      `insertWordExamples` is not called for it, there is no tick for it,
      nothing after it and no `done`. */
  lemma MissingIdAborts<V>(rows: seq<Row<V>>, k: nat, interrupted: nat -> bool, fails: nat -> bool)
    requires k < |rows|
    requires forall j | 0 <= j < k :: !interrupted(j) && "id" in rows[j] && !fails(j)
    requires !interrupted(k) && "id" !in rows[k]
    ensures WordExampleDownload(rows, interrupted, fails) == Run(Ticked(Args(rows[..k], RowId)), Raised)
    ensures Inserted(WordExampleDownload(rows, interrupted, fails).trace) == Args(rows[..k], RowId)
    ensures Ticks(WordExampleDownload(rows, interrupted, fails).trace) == k
    ensures Dones(WordExampleDownload(rows, interrupted, fails).trace) == 0
  {
    assert forall j | 0 <= j < k :: RowId(rows[j]).Some?;
    ArgumentFailedRun(rows, k, RowId, interrupted, fails);
  }

  /** `SentenceTranslateDownloadWorker.run`: one `insertSentenceTranslates(row)` per row. */
  function SentenceTranslateDownload<S>(rows: seq<S>, interrupted: nat -> bool, fails: nat -> bool): (r: Run<Event<S>>)
    ensures Dones(r.trace) == 1 <==> forall j | 0 <= j < |rows| :: !interrupted(j) && !fails(j)
    ensures Inserted(r.trace) <= rows
    ensures Dones(r.trace) <= 1
    ensures Ticks(r.trace) == StopIndex(rows, 0, Itself, interrupted, fails)
    ensures Dones(r.trace) == 1 ==> Inserted(r.trace) == rows && Ticks(r.trace) == |rows| && Last(r.trace) == Done
  {
    RunInvariants(rows, Itself, interrupted, fails);
    BatchRun(rows, Itself, interrupted, fails)
  }
}

=== FILE: login_worker.dfy ===
/**
 `LoginStateCheckWorker.run`: call `checkFn` on the cookie and
 emit `logSuccess(json.dumps(cookie))` when the result is truthy, otherwise
 `logFailed`. `checkFn` and the serializer are opaque parameters;
 `None` stands for a call that raises, which propagates out of `run`.
 */
module LoginWorker {
  import opened Wrappers
  import opened Signals

  datatype LoginEvent = LogSuccess(credential: string) | LogFailed

  function LoginCheck<C>(cookie: C, checkFn: C -> Option<bool>, dumps: C -> Option<string>): (r: Run<LoginEvent>)
    // at most one terminal signal, and one exactly when nothing raised
    ensures |r.trace| <= 1
    ensures |r.trace| == 1 <==> r.exit.Returned?
    ensures r.exit.Raised? <==> checkFn(cookie).None? || (checkFn(cookie) == Some(true) && dumps(cookie).None?)
    ensures forall s :: r.trace == [LogSuccess(s)] <==> checkFn(cookie) == Some(true) && dumps(cookie) == Some(s)
    ensures r.trace == [LogFailed] <==> checkFn(cookie) == Some(false)
  {
    match checkFn(cookie)
    case None => Run([], Raised)
    case Some(loggedIn) =>
      if loggedIn then
        match dumps(cookie)
        case None => Run([], Raised)
        case Some(s) => Run([LogSuccess(s)], Returned)
      else Run([LogFailed], Returned)
  }
}

=== FILE: signals.dfy ===
/**
 Signals emitted by the workers, modelled as an append-only event trace,
 together with the way a `run()` ends (normally or by an exception that
 propagates to its caller).
 */
module Signals {

  /** One emitted signal of a batch worker. `Insert(arg)` records that the
      per-item provider call was made with argument `arg`; `Tick` and `Done` are the
      payload-free `tick` and `done` signals. */
  datatype Event<T> = Insert(arg: T) | Tick | Done

  /** How a `run()` call ends: it returns, or an exception escapes it. */
  datatype Exit = Returned | Raised

  /** The observable effect of one `run()`: the signals in emission order and
      the way the call ended. */
  datatype Run<E> = Run(trace: seq<E>, exit: Exit)

  /** Number of `Tick` events in a trace. */
  function Ticks<T>(trace: seq<Event<T>>): nat
  {
    if trace == [] then 0
    else (if trace[0].Tick? then 1 else 0) + Ticks(trace[1..])
  }

  /** Number of `Done` events in a trace. */
  function Dones<T>(trace: seq<Event<T>>): nat
  {
    if trace == [] then 0
    else (if trace[0].Done? then 1 else 0) + Dones(trace[1..])
  }

  /** The arguments of the provider calls, in call order. */
  function Inserted<T>(trace: seq<Event<T>>): seq<T>
  {
    if trace == [] then []
    else (if trace[0].Insert? then [trace[0].arg] else []) + Inserted(trace[1..])
  }

  /** `n` payload-free ticks. */
  function TickRun<T>(n: nat): (r: seq<Event<T>>)
    ensures |r| == n
    ensures forall j | 0 <= j < n :: r[j] == Tick
  {
    if n == 0 then [] else [Tick] + TickRun(n - 1)
  }

  /** The trace of a loop that made the calls with arguments `s` without
      being stopped: each provider call followed by its tick. */
  function Ticked<T>(s: seq<T>): (r: seq<Event<T>>)
    ensures |r| == 2 * |s|
  {
    if s == [] then [] else [Insert(s[0]), Tick] + Ticked(s[1..])
  }

  lemma {:induction false} CountsOfConcat<T>(a: seq<Event<T>>, b: seq<Event<T>>)
    ensures Ticks(a + b) == Ticks(a) + Ticks(b)
    ensures Dones(a + b) == Dones(a) + Dones(b)
    ensures Inserted(a + b) == Inserted(a) + Inserted(b)
  {
    if a == [] {
      assert a + b == b;
    } else {
      assert (a + b)[0] == a[0];
      assert (a + b)[1..] == a[1..] + b;
      CountsOfConcat(a[1..], b);
    }
  }

  /** Each handled call contributes exactly one tick and no `Done`; the
      calls carry exactly the arguments `s`, in order. */
  lemma {:induction false} TickedCounts<T>(s: seq<T>)
    ensures Ticks(Ticked(s)) == |s|
    ensures Dones(Ticked(s)) == 0
    ensures Inserted(Ticked(s)) == s
    ensures forall j | 0 <= j < |Ticked(s)| :: !Ticked(s)[j].Done?
  {
    if s != [] {
      var head: seq<Event<T>> := [Insert(s[0]), Tick];
      TickedCounts(s[1..]);
      CountsOfConcat(head, Ticked(s[1..]));
      assert head[1..] == [Tick];
      assert Ticks(head) == 1;
      assert Dones(head) == 0;
      assert Inserted(head) == [s[0]];
      assert s == [s[0]] + s[1..];
      forall j | 0 <= j < |Ticked(s)|
        ensures !Ticked(s)[j].Done?
      {
        if j >= 2 {
          assert Ticked(s)[j] == Ticked(s[1..])[j - 2];
        }
      }
    }
  }

  lemma {:induction false} TickRunCounts<T>(n: nat)
    ensures Ticks(TickRun<T>(n)) == n
    ensures Dones(TickRun<T>(n)) == 0
    ensures Inserted(TickRun<T>(n)) == []
  {
    if n > 0 {
      var r := TickRun<T>(n);
      assert r[1..] == TickRun<T>(n - 1);
      TickRunCounts<T>(n - 1);
    }
  }

  /** The last event of a non-empty trace. */
  function Last<E>(trace: seq<E>): E
    requires trace != []
  {
    trace[|trace| - 1]
  }

  lemma DoneCounts<T>()
    ensures Ticks<T>([Done]) == 0 && Dones<T>([Done]) == 1 && Inserted<T>([Done]) == []
  {
    var d: seq<Event<T>> := [Done];
    assert d[1..] == [];
  }

  lemma InsertCounts<T>(x: T)
    ensures Ticks([Insert(x)]) == 0 && Dones([Insert(x)]) == 0 && Inserted([Insert(x)]) == [x]
  {
    assert [Insert(x)][1..] == [];
  }
}

=== FILE: wrappers.dfy ===
/** Optional values: a missing or unparsable value is `None`. */
module Wrappers {

  datatype Option<+T> = None | Some(value: T)
}
